=== FILE: README.md ===
# Occupancy node: debounce accumulator and power state machine

A Dafny model of the core of a battery-powered occupancy-sensing node
(an accelerometer "tap" sensor on a LoRa board with an AB1805 real-time
clock). Two pieces of sequential logic are modelled:

- **The occupancy accumulator** of `Presence::loop`. Each poll takes the
  sensor's occupied/clear answer and the current RTC second. An occupied
  answer opens a period if none is open. A clear answer closes the open
  period once more than `debounceMin * 60` seconds have passed **since the
  period's start** (not since the last occupied answer). A close adds the
  period's length to `occupancyNet`, sets `occupancyGross` to net plus one
  and raises the `currentDataChanged` flag. Modules `Occupancy` (one poll)
  and `OccupancyRuns` (sequences of polls).
- **The power state machine** of the demo sketch: `setup` chooses IDLE or
  ERROR, and each `loop` iteration runs the case of the current state
  (IDLE, SLEEPING, LOW_BATTERY, ERROR). Every case first announces a state
  edge through `publishStateTransition`. The SLEEPING case clears the
  wake-reason mailbox, defers while the sensor pin is high, and otherwise
  stops the watchdog, arms the RTC alarm 60 s ahead, sleeps 61 s, resumes
  the watchdog and returns to IDLE. Three one-line interrupt handlers
  write the mailbox. Modules `Irq` (handlers and mailbox), `PowerMachine`
  (setup and one iteration) and `PowerRuns` (sequences of iterations).
  `Config` holds the debounce window shared by both loops.

Everything outside the two loops is a parameter: the sensor answer, the
sensor pin level, the RTC readings before and after sleep, and which
interrupts fired while the device slept. Side effects of an iteration
are recorded as a trace of events (`Notify`, `StopWatchdog`, `ArmAlarm`,
`Sleep`, `ResumeWatchdog`, `BlinkForever`).

## Behaviour as written

The model follows the code as written, including where the code and its
own comments point in different directions:

- IDLE never moves to SLEEPING. The comment at src/Presence-Demo.cpp:119
  says "go to sleep", but the assignment `state = SLEEPING_STATE` at :120
  is commented out. IDLE only refreshes `lastEventTime` once the debounce
  time has passed. Starting from `setup`, the machine therefore stays in
  IDLE (or ERROR) forever (`PowerRuns.NeverSleepsAfterSetup`). The
  SLEEPING pass is still modelled and proved on its own.
- A wake whose mailbox is still `Invalid` does not refresh
  `lastEventTime`. The `else` branch at src/Presence-Demo.cpp:172-175 logs
  "Woke up without an interrupt" and writes only `state`, while the three
  branches above it also record the wake time.
- Nothing assigns LOW_BATTERY, so it is unreachable. If the machine ever
  were in it, the next iteration would return to IDLE.
- `occupancyGross` stays equal to net plus one after a close, including
  while the next period is open. It is not reset when a period opens.
- `setup` reads the RTC into `lastEventTime` (src/Presence-Demo.cpp:70)
  before the timing setup (:78) sets the RTC to the fixed time
  `1722075394 + 60` (src/timing.cpp:26). After a reset of a node that had
  been running, the first IDLE passes can therefore see a clock earlier
  than `lastEventTime`. The power state machine makes no assumption about
  clock order, so `PowerRuns.NeverSleepsAfterSetup` covers that run too.
- The wake branch reads the `volatile` mailbox (src/Presence-Demo.cpp:50) afresh at each of its three tests: for Sensor at :157, UserSwitch at :162 and AB1805 at :167. A handler that fires between these reads changes what the later tests see. For example, the node wakes with `AB1805` in the mailbox, the test at :157 fails, and then the sensor handler stores `Sensor`. The tests at :162 and :167 then both fail, so the pass takes the `else` at :172-175 and does not refresh `lastEventTime`, though an interrupt woke the node. The model reads the mailbox once and does not cover this race (see "## Left out").
- The interrupt handlers are attached last in `setup`
  (src/Presence-Demo.cpp:104-106), so a handler can overwrite the mailbox
  before the first iteration. The SLEEPING pass clears the mailbox before
  it reads it, so such a value is never observed
  (`PowerRuns.StaleReasonIgnored`).

## Model

| member | source | states |
|---|---|---|
| `Config.Window` | src/Presence/Presence.cpp:53 | the debounce window is a whole number of minutes, exactly `debounceMin` of them, in seconds |
| `Irq.Handler` | src/Presence-Demo.cpp:218-229 | each interrupt handler stores its own wake reason, never `Invalid` |
| `Irq.Deliver` | src/Presence-Demo.cpp:218-229 | the mailbox keeps the reason of the last handler that ran, or its old value if none ran |
| `Irq.ClearedSlotReadsInvalid` | src/Presence-Demo.cpp:130-175 | after the loop clears the slot, it reads `Invalid` exactly when no interrupt fired |
| `Irq.EveryReasonObservable` | src/Presence-Demo.cpp:218-229 | each of the four reasons can be the one observed after a wake |
| `Occupancy.Boot` | src/Presence/Presence.cpp:38-39 | at boot no period is open and the recorded start is zero |
| `Occupancy.Step` | src/Presence/Presence.cpp:42-63 | a period is open afterwards iff occupied or the open one did not close; net grows only on a close, by the period length, which exceeds the window; gross becomes net plus one on a close and is untouched otherwise; dirty is raised on a close and never lowered |
| `Occupancy.Loop` | src/Presence/Presence.cpp:37-66 | the loop returns true whatever the input |
| `Occupancy.Setup` | src/Presence/Presence.cpp:27-35 | setup succeeds exactly when the tap sensor's setup succeeds |
| `Occupancy.StartPeriod` | src/Presence/Presence.cpp:42-46 | occupied with no open period opens one at this time and leaves the counters and flag alone |
| `Occupancy.ContinuePeriod` | src/Presence/Presence.cpp:49-51 | occupied with an open period changes nothing |
| `Occupancy.HoldWithinWindow` | src/Presence/Presence.cpp:53-63 | clear, with an open period still within the window from its start, changes nothing |
| `Occupancy.ClosePeriod` | src/Presence/Presence.cpp:53-57 | clear after the window closes the period: net plus its length, gross equal to the new net plus one, dirty raised |
| `Occupancy.IdleNoop` | src/Presence/Presence.cpp:53-63 | clear with no open period changes nothing |
| `OccupancyRuns.Run` | src/Presence/Presence.cpp:37-66 | over any sequence of polls in which no reading is earlier than the start of a period then open, net never decreases and a raised dirty flag stays raised |
| `OccupancyRuns.Closed` | src/Presence/Presence.cpp:53-55 | every period the debounce rule closes is longer than the window |
| `OccupancyRuns.NetIsSumOfClosedPeriods` | src/Presence/Presence.cpp:53-55 | over any such run (readings may go backwards while no period is open) net grows by exactly the summed lengths of the closed periods, whatever the chatter |
| `OccupancyRuns.GrossAndDirtyFollowCloses` | src/Presence/Presence.cpp:55-57 | after any such run gross is net plus one if any period closed and unchanged otherwise; dirty is raised iff some period closed or it already was |
| `OccupancyRuns.ClosedPeriodsOrdered` | src/Presence/Presence.cpp:42-57 | with a non-decreasing clock, closed periods are non-empty, in order and non-overlapping |
| `OccupancyRuns.ChatterIsAbsorbed` | src/Presence/Presence.cpp:49-53 | occupied samples and clear ones within the window leave an open period and the counters untouched |
| `OccupancyRuns.OpenPeriodNotCounted` | src/Presence/Presence.cpp:42-57 | with a non-decreasing clock, when a run ends with a period open, every closed period (whose lengths make up net's growth) ends no later than the open period's start, so the open period contributes nothing to net |
| `OccupancyRuns.OneMinuteScenario` | src/Presence/Presence.cpp:42-57 | with a one-minute window, occupied at 0, clear at 10, occupied at 20, clear at 70 closes one 70-second period |
| `PowerMachine.Setup` | src/Presence-Demo.cpp:40-89 | setup ends in ERROR iff system data, timing or sensor setup failed, and otherwise in IDLE; a later success never clears ERROR |
| `PowerMachine.Publish` | src/Presence-Demo.cpp:209-216 | one notification from the old to the current state, after which the old state equals the current one |
| `PowerMachine.AnnounceEdge` | src/Presence-Demo.cpp:118 | a notification is emitted exactly when the state differs from the remembered one |
| `PowerMachine.IdlePass` | src/Presence-Demo.cpp:117-126 | IDLE stays IDLE for every clock reading; past the debounce time it records now as the last event, and within it (clock not behind) nothing changes |
| `PowerMachine.SleepingPass` | src/Presence-Demo.cpp:128-176 | pin high: mailbox cleared, no action; pin clear: watchdog stopped, alarm at now + 60, sleep of 61000 ms, watchdog resumed, then IDLE, with the last event refreshed to the wake time iff an interrupt fired |
| `PowerMachine.LowBatteryPass` | src/Presence-Demo.cpp:178-181 | LOW_BATTERY goes to IDLE with no other change |
| `PowerMachine.ErrorPass` | src/Presence-Demo.cpp:183-195 | ERROR blinks forever and keeps the machine as it is |
| `PowerMachine.Dispatch` | src/Presence-Demo.cpp:116-196 | runs the current state's case after the edge guard; no case publishes, ERROR is neither entered nor left, LOW_BATTERY is never produced, IDLE stays IDLE |
| `PowerMachine.Step` | src/Presence-Demo.cpp:114-196 | for any inputs, one iteration records the edge and announces it once, first; it never enters or leaves ERROR, never reaches LOW_BATTERY, and IDLE stays IDLE |
| `PowerRuns.Run` | src/Presence-Demo.cpp:114-196 | over any run, with any clock readings, the machine ends in ERROR iff it started there; over any non-empty run it never ends in LOW_BATTERY |
| `PowerRuns.ErrorIsTerminal` | src/Presence-Demo.cpp:183-195 | once in ERROR, every later iteration starts and ends in ERROR |
| `PowerRuns.BootStates` | src/Presence-Demo.cpp:116-126 | a machine in IDLE or ERROR stays in that state for every iteration |
| `PowerRuns.NeverSleepsAfterSetup` | src/Presence-Demo.cpp:67-126 | after setup, whatever the clock readings, the machine stays IDLE if every setup succeeded and ERROR otherwise |
| `PowerRuns.NotifyExactlyOnEdges` | src/Presence-Demo.cpp:209-216 | the notifications of a run are exactly the changes between consecutive states, in order |
| `PowerRuns.StepKeepsWatchdog` | src/Presence-Demo.cpp:143-155 | one iteration leaves a running watchdog running and never arms or sleeps while it runs |
| `PowerRuns.WatchdogBalanced` | src/Presence-Demo.cpp:143-155 | over any run stops and resumes alternate, alarms and sleeps happen only while stopped, and the watchdog ends running |
| `PowerRuns.StaleReasonIgnored` | src/Presence-Demo.cpp:130 | the SLEEPING pass does not depend on the mailbox value left from before it |

## Left out

- OccupancyRuns.Run: assumes that nothing but `Presence::loop` writes `currentDataChanged`, `occupancyNet` or `occupancyGross` between two polls. The persistence layer's `loop` runs between polls (src/Presence-Demo.cpp:199), and its clearing of the flag once the data is saved is not modelled. So "a raised dirty flag stays raised" (here and in `OccupancyRuns.GrossAndDirtyFollowCloses`) describes the accumulator alone.
- src/timing.cpp: a thin wrapper over the AB1805 RTC library. Clock reads are inputs; watchdog stop/resume and the alarm are trace events.
- src/Presence/TapSensor.cpp: the accelerometer driver over I2C. Its answer is the `occupied` field of a sample.
- src/Presence/TapSensor.h and src/Presence/Presence.h: declarations and singleton boilerplate, no logic.
- Serial begin/flush/end, the 5000 ms bounded wait for the serial port (src/Presence-Demo.cpp:150-154), the LED, `delay` and logging: no effect on the modelled state.
- The 20-second tap-sensitivity test in `setup` (src/Presence-Demo.cpp:91-102): interactive and leaves no state behind.
- The collaborator calls at the end of `loop` (src/Presence-Demo.cpp:198-201): their code is not part of this model, so the model does not say how often `Presence::loop` runs relative to the state machine.
- Interrupt interleavings during the wake branch: the model reads the mailbox once, after the handlers in `fired` have run. The source reloads the `volatile` mailbox (src/Presence-Demo.cpp:50) at each test of the branch, at :157, :162 and :167. Handlers that run before the reset at :130 are overwritten by it.
- `LowPower.sleep` returning early on an interrupt: the trace records the requested duration only.
- The numeric mailbox codes (0, 1, 4, 5) live in a header that is not part of this model; the four reasons are an enumeration.
- Occupancy.Step: requires the clock not to be earlier than the open period's start (and so `OccupancyRuns.Run` requires it at every poll of a run); the signed/unsigned `time_t` comparison that would wrap on a backwards clock is not modelled.
- Occupancy.Step: uses one clock reading per poll; the source reads the RTC again when recording the start and the closing time.
- PowerMachine.IdlePass: when the clock reads earlier than `lastEventTime` the contract promises only that the machine stays in IDLE with its event time kept or set to now; whether the source refreshes it then depends on the width of `time_t`, which is declared outside this model.
- PowerMachine.IdlePass: uses one clock reading for the gate and for the recorded event time; the source reads the RTC again between the comparison (src/Presence-Demo.cpp:119) and the assignment (:122).
- Config.Window: `debounceMin * 60` is unbounded; a 32-bit `unsigned long` overflow for huge settings is not modelled.
- The widths of `occupancyNet` and `occupancyGross` are declared in a header that is not part of this model; they are unbounded integers.

=== FILE: config.dfy ===
/** The one configuration value the core interprets: `debounceMin`, in minutes.
    It sets both the occupancy-close debounce window and the idle checkpoint gate. */
module Config {

  const SecondsPerMinute: nat := 60

  /** Debounce minutes as seconds, as both loops compare against `debounceMin * 60`. */
  function Window(debounceMin: nat): (w: nat)
    ensures w % SecondsPerMinute == 0
    ensures w / SecondsPerMinute == debounceMin
  {
    debounceMin * SecondsPerMinute
  }
}

=== FILE: irq.dfy ===
/** The wake-reason mailbox: a single slot written by three interrupt handlers
    and read by the SLEEPING pass of the main loop after it wakes. */
module Irq {

  /** The values the loop distinguishes after a wake; anything else falls
      into its final `else` branch and behaves like `Invalid`. */
  datatype IrqReason = Invalid | AB1805 | UserSwitch | Sensor

  /** The three wake interrupts attached in setup: the RTC alarm line, the
      user switch (falling edge) and the accelerometer line (rising edge). */
  datatype Interrupt = RtcAlarm | UserSwitchPressed | SensorRising

  /** What each one-line handler stores: `wakeUp_Timer`, `userSwitchISR`
      and `sensorISR` each write one constant and nothing else. */
  function Handler(i: Interrupt): (r: IrqReason)
    ensures r != Invalid
    ensures (i == RtcAlarm <==> r == AB1805)
      && (i == UserSwitchPressed <==> r == UserSwitch)
      && (i == SensorRising <==> r == Sensor)
  {
    match i
    case RtcAlarm => AB1805
    case UserSwitchPressed => UserSwitch
    case SensorRising => Sensor
  }

  /** The mailbox after the handlers for `fired` ran in order, each
      overwriting the slot. */
  function Deliver(mailbox: IrqReason, fired: seq<Interrupt>): (r: IrqReason)
    ensures |fired| == 0 ==> r == mailbox
    ensures |fired| > 0 ==> r == Handler(fired[|fired| - 1])
    decreases |fired|
  {
    if |fired| == 0 then mailbox else Deliver(Handler(fired[0]), fired[1..])
  }

  /** After the loop clears the slot, it reads `Invalid` exactly when no
      interrupt fired since. */
  lemma ClearedSlotReadsInvalid(fired: seq<Interrupt>)
    ensures Deliver(Invalid, fired) == Invalid <==> |fired| == 0
  {
  }

  /** Every one of the four reasons can be observed after a cleared slot, so
      treating the observed reason as any of the four loses nothing. */
  lemma EveryReasonObservable(r: IrqReason)
    ensures exists fired: seq<Interrupt> :: Deliver(Invalid, fired) == r
  {
    match r
    case Invalid =>
      assert Deliver(Invalid, []) == r;
    case AB1805 =>
      assert Deliver(Invalid, [RtcAlarm]) == r;
    case UserSwitch =>
      assert Deliver(Invalid, [UserSwitchPressed]) == r;
    case Sensor =>
      assert Deliver(Invalid, [SensorRising]) == r;
  }
}

=== FILE: occupancy.dfy ===
/** The occupancy debounce and accumulator of `Presence::loop`: a binary
    occupied sample and the current RTC second are folded into occupancy
    periods, whose lengths are added to the day's net occupied seconds. */
module Occupancy {
  import opened Config

  /** The loop's static period state (`lastOccupancyState`,
      `occupancyPeriodStart`) together with the counters it writes
      (`occupancyNet`, `occupancyGross`, `currentDataChanged`). */
  datatype Accumulator = Accumulator(
    active: bool,
    start: int,
    net: int,
    gross: int,
    dirty: bool)

  /** One poll: the tap sensor's answer and the one clock reading used for
      the whole call (the source reads the RTC again when it records the
      start and the closing time; the model assumes those reads agree). */
  datatype Sample = Sample(occupied: bool, now: int)

  /** What `Presence::loop` hands back: the new state and its return value. */
  datatype Polled = Polled(acc: Accumulator, ok: bool)

  /** The state at boot: no period open, `occupancyPeriodStart` zero, and
      whatever counters the persistence layer restored. */
  function Boot(net: int, gross: int, dirty: bool): (s: Accumulator)
    ensures !s.active && s.start == 0
    ensures s.net == net && s.gross == gross && s.dirty == dirty
  {
    Accumulator(false, 0, net, gross, dirty)
  }

  /** An open period whose debounce window, counted from its start, has
      elapsed while the sensor reports no occupancy. */
  predicate Closes(s: Accumulator, x: Sample, debounceMin: nat)
  {
    !x.occupied && s.active && x.now - s.start > Window(debounceMin)
  }

  /** One call of the debounce logic. */
  function Step(s: Accumulator, x: Sample, debounceMin: nat): (r: Accumulator)
    requires s.active ==> s.start <= x.now
    // a period is open afterwards exactly when the sensor saw occupancy or the open one did not close
    ensures r.active <==> x.occupied || (s.active && !Closes(s, x, debounceMin))
    // the start only moves when a new period opens, and then to this call's time
    ensures r.start != s.start ==> x.occupied && !s.active && r.start == x.now
    ensures x.occupied && !s.active ==> r.start == x.now
    // net grows exactly on a close, by more than the debounce window
    ensures r.net != s.net <==> Closes(s, x, debounceMin)
    ensures r.net >= s.net
    ensures Closes(s, x, debounceMin) ==> r.net - s.net == x.now - s.start > Window(debounceMin)
    // gross is only ever written as net plus one, and only on a close
    ensures r.gross != s.gross ==> r.gross == r.net + 1
    ensures Closes(s, x, debounceMin) ==> r.gross == r.net + 1
    ensures !Closes(s, x, debounceMin) ==> r.gross == s.gross
    // the dirty flag is raised on a close and never lowered here
    ensures r.dirty <==> s.dirty || Closes(s, x, debounceMin)
  {
    if x.occupied then
      if !s.active then s.(active := true, start := x.now) else s
    else if s.active && x.now - s.start > Window(debounceMin) then
      var net := s.net + (x.now - s.start);
      s.(active := false, net := net, gross := net + 1, dirty := true)
    else
      s
  }

  /** `Presence::loop`: the step, and a return value that does not depend on
      the input. */
  function Loop(s: Accumulator, x: Sample, debounceMin: nat): (r: Polled)
    requires s.active ==> s.start <= x.now
    ensures r.ok
    ensures r.acc == Step(s, x, debounceMin)
  {
    Polled(Step(s, x, debounceMin), true)
  }

  /** `Presence::setup` passes the tap sensor's setup result through. */
  function Setup(tapSensorOk: bool): (ok: bool)
    ensures ok <==> tapSensorOk
  {
    tapSensorOk
  }

  /** Occupancy with no open period opens one now and touches no counter. */
  lemma StartPeriod(s: Accumulator, x: Sample, debounceMin: nat)
    requires x.occupied && !s.active
    ensures Step(s, x, debounceMin) == s.(active := true, start := x.now)
  {
  }

  /** Occupancy during an open period changes nothing. */
  lemma ContinuePeriod(s: Accumulator, x: Sample, debounceMin: nat)
    requires x.occupied && s.active && s.start <= x.now
    ensures Step(s, x, debounceMin) == s
  {
  }

  /** No occupancy, but still within the window counted from the period's
      start: the period stays open and nothing changes. */
  lemma HoldWithinWindow(s: Accumulator, x: Sample, debounceMin: nat)
    requires !x.occupied && s.active && s.start <= x.now
    requires x.now - s.start <= Window(debounceMin)
    ensures Step(s, x, debounceMin) == s
  {
  }

  /** No occupancy once the window from the start has passed: the period
      closes and its whole length, measured from its start, is credited. */
  lemma ClosePeriod(s: Accumulator, x: Sample, debounceMin: nat)
    requires !x.occupied && s.active
    requires x.now - s.start > Window(debounceMin)
    ensures Step(s, x, debounceMin) == s.(active := false,
      net := s.net + (x.now - s.start),
      gross := s.net + (x.now - s.start) + 1,
      dirty := true)
  {
  }

  /** No occupancy and no open period: a no-op. */
  lemma IdleNoop(s: Accumulator, x: Sample, debounceMin: nat)
    requires !x.occupied && !s.active
    ensures Step(s, x, debounceMin) == s
  {
  }
}

=== FILE: occupancy_runs.dfy ===
/** Sequences of polls: the accumulator against the periods the debounce
    rule cuts out of the same samples. */
module OccupancyRuns {
  import opened Config
  import opened Occupancy

  /** A closed occupancy period, from its opening sample to its closing one. */
  datatype Period = Period(start: int, end: int)

  function Length(p: Period): (n: int)
  {
    p.end - p.start
  }

  function Total(ps: seq<Period>): (n: int)
  {
    if |ps| == 0 then 0 else Length(ps[0]) + Total(ps[1..])
  }

  /** RTC readings never go backwards across the polls. */
  predicate Sorted(xs: seq<Sample>)
  {
    forall i, j :: 0 <= i < j < |xs| ==> xs[i].now <= xs[j].now
  }

  /** What each poll of a run needs from the clock, and nothing more:
      whenever a period is open, the next reading is not earlier than its
      start. Readings may otherwise go backwards. */
  predicate Admissible(s: Accumulator, xs: seq<Sample>, debounceMin: nat)
    decreases |xs|
  {
    || |xs| == 0
    || ((s.active ==> s.start <= xs[0].now)
        && Admissible(Step(s, xs[0], debounceMin), xs[1..], debounceMin))
  }

  /** The state after polling every sample in order. */
  function Run(s: Accumulator, xs: seq<Sample>, debounceMin: nat): (r: Accumulator)
    requires Admissible(s, xs, debounceMin)
    ensures r.net >= s.net
    ensures s.dirty ==> r.dirty
    decreases |xs|
  {
    if |xs| == 0 then s
    else
      Run(Step(s, xs[0], debounceMin), xs[1..], debounceMin)
  }

  /** The periods the debounce rule closes, tracked on the open flag and
      start time alone, with no counters: a period opens on occupancy when
      none is open and closes on the first non-occupied sample more than the
      window after its start. */
  function Closed(active: bool, start: int, xs: seq<Sample>, debounceMin: nat): (ps: seq<Period>)
    ensures forall i :: 0 <= i < |ps| ==> Length(ps[i]) > Window(debounceMin)
    decreases |xs|
  {
    if |xs| == 0 then []
    else if xs[0].occupied then
      Closed(true, if active then start else xs[0].now, xs[1..], debounceMin)
    else if active && xs[0].now - start > Window(debounceMin) then
      [Period(start, xs[0].now)] + Closed(false, start, xs[1..], debounceMin)
    else
      Closed(active, start, xs[1..], debounceMin)
  }

  /** Conservation: net seconds grow by exactly the summed lengths of the
      closed periods, whatever the chatter inside the debounce windows. */
  lemma {:induction false} NetIsSumOfClosedPeriods(s: Accumulator, xs: seq<Sample>, debounceMin: nat)
    requires Admissible(s, xs, debounceMin)
    ensures Run(s, xs, debounceMin).net == s.net + Total(Closed(s.active, s.start, xs, debounceMin))
    decreases |xs|
  {
    if |xs| > 0 {
      var t := Step(s, xs[0], debounceMin);
      NetIsSumOfClosedPeriods(t, xs[1..], debounceMin);
      if Closes(s, xs[0], debounceMin) {
        var ps := Closed(s.active, s.start, xs, debounceMin);
        assert ps == [Period(s.start, xs[0].now)] + Closed(false, s.start, xs[1..], debounceMin);
        assert ps[1..] == Closed(t.active, t.start, xs[1..], debounceMin);
      }
    }
  }

  /** Gross is net plus one once any period has closed, and otherwise keeps
      its restored value; the dirty flag is raised exactly when some period
      closed (or was already raised). */
  lemma {:induction false} GrossAndDirtyFollowCloses(s: Accumulator, xs: seq<Sample>, debounceMin: nat)
    requires Admissible(s, xs, debounceMin)
    ensures var r := Run(s, xs, debounceMin);
      var ps := Closed(s.active, s.start, xs, debounceMin);
      && (|ps| > 0 ==> r.gross == r.net + 1)
      && (|ps| == 0 ==> r.gross == s.gross && r.net == s.net)
      && (r.dirty <==> s.dirty || |ps| > 0)
    decreases |xs|
  {
    if |xs| > 0 {
      var t := Step(s, xs[0], debounceMin);
      GrossAndDirtyFollowCloses(t, xs[1..], debounceMin);
    }
  }

  /** With a sorted clock the closed periods are well formed, start no
      earlier than any bound on the clock, and follow one another without
      overlapping. */
  predicate Ordered(ps: seq<Period>, floor: int)
  {
    && (forall i :: 0 <= i < |ps| ==> floor <= ps[i].start < ps[i].end)
    && (forall i :: 0 <= i < |ps| - 1 ==> ps[i].end <= ps[i + 1].start)
  }

  lemma {:induction false} ClosedPeriodsOrdered(active: bool, start: int, xs: seq<Sample>, debounceMin: nat, floor: int)
    requires Sorted(xs)
    requires active ==> floor <= start
    requires forall i :: 0 <= i < |xs| ==> floor <= xs[i].now
    ensures Ordered(Closed(active, start, xs, debounceMin), floor)
    decreases |xs|
  {
    if |xs| > 0 {
      var x := xs[0];
      var rest := xs[1..];
      assert forall i :: 0 <= i < |rest| ==> rest[i] == xs[i + 1];
      if x.occupied {
        ClosedPeriodsOrdered(true, if active then start else x.now, rest, debounceMin, floor);
      } else if active && x.now - start > Window(debounceMin) {
        ClosedPeriodsOrdered(false, start, rest, debounceMin, x.now);
        var tail := Closed(false, start, rest, debounceMin);
        var ps := [Period(start, x.now)] + tail;
        assert Closed(active, start, xs, debounceMin) == ps;
        assert forall i :: 1 <= i < |ps| ==> ps[i] == tail[i - 1];
      } else {
        ClosedPeriodsOrdered(active, start, rest, debounceMin, floor);
      }
    }
  }

  /** Chatter inside the window: while every sample is either occupied or
      within the window from the open period's start, the state is untouched. */
  lemma {:induction false} ChatterIsAbsorbed(s: Accumulator, xs: seq<Sample>, debounceMin: nat)
    requires s.active && Admissible(s, xs, debounceMin)
    requires forall i :: 0 <= i < |xs| ==> xs[i].occupied || xs[i].now - s.start <= Window(debounceMin)
    ensures Run(s, xs, debounceMin) == s
    ensures Closed(s.active, s.start, xs, debounceMin) == []
    decreases |xs|
  {
    if |xs| > 0 {
      assert Step(s, xs[0], debounceMin) == s;
      assert forall i :: 0 <= i < |xs[1..]| ==> xs[1..][i] == xs[i + 1];
      ChatterIsAbsorbed(s, xs[1..], debounceMin);
    }
  }

  /** Every period in `ps` has ended by time `t`. */
  predicate EndsBy(ps: seq<Period>, t: int)
  {
    forall i :: 0 <= i < |ps| ==> ps[i].end <= t
  }

  /** A period open at the end of a run starts no earlier than any bound on
      the clock, as long as the period open at the beginning (if any) did. */
  lemma {:induction false} OpenStartBound(s: Accumulator, xs: seq<Sample>, debounceMin: nat, floor: int)
    requires Sorted(xs) && Admissible(s, xs, debounceMin)
    requires s.active ==> floor <= s.start
    requires forall i :: 0 <= i < |xs| ==> floor <= xs[i].now
    ensures Run(s, xs, debounceMin).active ==> floor <= Run(s, xs, debounceMin).start
    decreases |xs|
  {
    if |xs| > 0 {
      assert forall i :: 0 <= i < |xs[1..]| ==> xs[1..][i] == xs[i + 1];
      assert Sorted(xs[1..]);
      OpenStartBound(Step(s, xs[0], debounceMin), xs[1..], debounceMin, floor);
    }
  }

  /** A period left open when the run ends contributes nothing to net yet:
      every period already closed, and so every second counted in net
      (`NetIsSumOfClosedPeriods`), ends no later than the open period's
      start. Its partial length is lost if the node resets before it closes. */
  lemma {:induction false} OpenPeriodNotCounted(s: Accumulator, xs: seq<Sample>, debounceMin: nat)
    requires Sorted(xs) && Admissible(s, xs, debounceMin)
    ensures Run(s, xs, debounceMin).active ==>
      EndsBy(Closed(s.active, s.start, xs, debounceMin), Run(s, xs, debounceMin).start)
    decreases |xs|
  {
    if |xs| > 0 {
      var x := xs[0];
      var rest := xs[1..];
      var t := Step(s, x, debounceMin);
      var r := Run(s, xs, debounceMin);
      assert r == Run(t, rest, debounceMin);
      OpenPeriodNotCounted(t, rest, debounceMin);
      var tail := Closed(t.active, t.start, rest, debounceMin);
      assert forall i :: 0 <= i < |rest| ==> rest[i] == xs[i + 1];
      if Closes(s, x, debounceMin) {
        OpenStartBound(t, rest, debounceMin, x.now);
        var ps := [Period(s.start, x.now)] + tail;
        assert Closed(s.active, s.start, xs, debounceMin) == ps;
        assert forall i :: 1 <= i < |ps| ==> ps[i] == tail[i - 1];
      } else {
        assert Closed(s.active, s.start, xs, debounceMin) == tail;
      }
    }
  }

  /** With a one-minute window: occupied at 0, clear at 10, occupied at 20,
      clear at 70. The gap at 10..20 lies inside the window from the start at
      0; at 70 the window has passed, so one period of 70 seconds closes. */
  lemma OneMinuteScenario(net: int, gross: int, dirty: bool)
    ensures var xs := [Sample(true, 0), Sample(false, 10), Sample(true, 20), Sample(false, 70)];
      var r := Run(Boot(net, gross, dirty), xs, 1);
      && Closed(false, 0, xs, 1) == [Period(0, 70)]
      && r == Accumulator(false, 0, net + 70, net + 71, true)
  {
  }
}

=== FILE: power_machine.dfy ===
/** The power state machine of the demo firmware: `setup` decides between
    IDLE and ERROR, and each `loop` iteration runs the case of the current
    state, announcing every state edge first. */
module PowerMachine {
  import opened Config
  import opened Irq

  datatype PowerState = Error | Idle | Sleeping | LowBattery

  /** The loop's globals: `state`, `oldState` (for edge detection),
      `lastEventTime` and the `IRQ_Reason` mailbox. */
  datatype Machine = Machine(
    state: PowerState,
    oldState: PowerState,
    lastEventTime: int,
    irq: IrqReason)

  /** Observable side effects, in the order an iteration performs them. */
  datatype Event =
    | Notify(from: PowerState, to: PowerState)
    | StopWatchdog
    | ArmAlarm(at: int)
    | Sleep(ms: int)
    | ResumeWatchdog
    | BlinkForever

  datatype Outcome = Outcome(machine: Machine, trace: seq<Event>)

  /** What one iteration observes from outside: the accelerometer pin, the
      RTC before sleeping (`now`) and after waking (`wokeAt`), and the
      interrupts whose handlers ran between the mailbox reset and the
      branch on the wake reason. */
  datatype Inputs = Inputs(pinHigh: bool, now: int, wokeAt: int, fired: seq<Interrupt>)

  /** What `setup` leaves behind: the machine and the debounce setting. */
  datatype SetupResult = SetupResult(machine: Machine, debounceMin: nat)

  /** The fixed sleep quantum, in seconds. */
  const SleepSeconds: int := 60

  /** The debounce setting `setup` writes once system data is available. */
  const SetupDebounceMin: nat := 1

  /** The events this machine emits as notifications, in order. */
  function Notifications(t: seq<Event>): (n: seq<Event>)
    ensures |n| <= |t|
    ensures forall i :: 0 <= i < |n| ==> n[i].Notify?
  {
    if |t| == 0 then []
    else (if t[0].Notify? then [t[0]] else []) + Notifications(t[1..])
  }

  lemma {:induction false} NotificationsAppend(a: seq<Event>, b: seq<Event>)
    ensures Notifications(a + b) == Notifications(a) + Notifications(b)
    decreases |a|
  {
    if |a| > 0 {
      assert (a + b)[0] == a[0];
      assert (a + b)[1..] == a[1..] + b;
      NotificationsAppend(a[1..], b);
    } else {
      assert a + b == b;
    }
  }

  lemma {:induction false} NotificationsOfQuiet(t: seq<Event>)
    requires forall i :: 0 <= i < |t| ==> !t[i].Notify?
    ensures Notifications(t) == []
    decreases |t|
  {
    if |t| > 0 {
      assert forall i :: 0 <= i < |t[1..]| ==> t[1..][i] == t[i + 1];
      NotificationsOfQuiet(t[1..]);
    }
  }

  /** `setup`: the machine starts in IDLE, and each failing collaborator
      (system data, timing, sensor) writes ERROR; nothing writes IDLE back.
      `clock` is the RTC reading taken once system data is up; without it
      `lastEventTime` keeps its initial zero and the debounce setting keeps
      the value `storedDebounceMin` already held.

      Two things happen after these writes and are not part of the result.
      The timing setup then sets the RTC to a fixed time, so after a reset of
      a node that had been running, `clock` can be later than the first
      readings the loop sees; `IdlePass` and `Step` therefore make no
      assumption about the order of the clock. And the interrupt handlers are
      attached last, so one may overwrite the `Invalid` mailbox before the
      first iteration; `PowerRuns.StaleReasonIgnored` shows the loop never
      reads such a value. */
  function Setup(sysDataOk: bool, timingOk: bool, sensorOk: bool, clock: int, storedDebounceMin: nat): (b: SetupResult)
    ensures b.machine.state == Error <==> !(sysDataOk && timingOk && sensorOk)
    ensures b.machine.state == Error || b.machine.state == Idle
    ensures b.machine.oldState == Idle && b.machine.irq == Invalid
    ensures b.machine.lastEventTime == (if sysDataOk then clock else 0)
    ensures b.debounceMin == (if sysDataOk then SetupDebounceMin else storedDebounceMin)
  {
    var initial := Machine(Idle, Idle, 0, Invalid);
    var afterSysData :=
      if sysDataOk then initial.(lastEventTime := clock) else initial.(state := Error);
    var afterTiming := if timingOk then afterSysData else afterSysData.(state := Error);
    var afterSensor := if sensorOk then afterTiming else afterTiming.(state := Error);
    SetupResult(afterSensor, if sysDataOk then SetupDebounceMin else storedDebounceMin)
  }

  /** `publishStateTransition`: one notification naming the old and the new
      state, after which the edge is recorded. */
  function Publish(m: Machine): (r: Outcome)
    ensures r.machine.oldState == r.machine.state == m.state
    ensures r.machine.lastEventTime == m.lastEventTime && r.machine.irq == m.irq
    ensures r.trace == [Notify(m.oldState, m.state)]
  {
    Outcome(m.(oldState := m.state), [Notify(m.oldState, m.state)])
  }

  /** The guard every case opens with: publish only if the state changed. */
  function AnnounceEdge(m: Machine): (r: Outcome)
    ensures r.machine == m.(oldState := m.state)
    ensures m.state != m.oldState <==> |r.trace| == 1
    ensures m.state != m.oldState ==> r.trace == [Notify(m.oldState, m.state)]
    ensures m.state == m.oldState ==> r.trace == []
  {
    if m.state != m.oldState then Publish(m) else Outcome(m, [])
  }

  /** IDLE: once the debounce time has passed since the last event, record a
      new event time. The switch to SLEEPING is commented out in the source,
      so the machine stays in IDLE either way. The elapsed time is taken as
      a signed difference; when the clock reads earlier than the last event
      the contract promises only that the machine stays in IDLE with its
      event time kept or set to `now`, because the source's comparison then
      depends on the width of `time_t`. */
  function IdlePass(m: Machine, now: int, debounceMin: nat): (r: Outcome)
    requires m.state == Idle
    ensures r.machine.state == Idle && r.trace == []
    ensures r.machine == m || r.machine == m.(lastEventTime := now)
    ensures now - m.lastEventTime > Window(debounceMin) ==> r.machine == m.(lastEventTime := now)
    ensures m.lastEventTime <= now && now - m.lastEventTime <= Window(debounceMin) ==> r.machine == m
  {
    if now - m.lastEventTime > Window(debounceMin) then
      Outcome(m.(lastEventTime := now), [])
    else
      Outcome(m, [])
  }

  /** SLEEPING: clear the mailbox; if the accelerometer pin is still high,
      try again next iteration. Otherwise suspend the watchdog, arm the RTC
      alarm one quantum ahead, sleep one second past it, resume the watchdog,
      and go to IDLE. A wake credited to an interrupt records the wake time
      as the last event; a wake with the mailbox still clear does not. */
  function SleepingPass(m: Machine, inp: Inputs): (r: Outcome)
    requires m.state == Sleeping
    ensures inp.pinHigh ==> r.machine == m.(irq := Invalid) && r.trace == []
    ensures !inp.pinHigh ==> r.machine.state == Idle && r.machine.oldState == m.oldState
    ensures !inp.pinHigh ==> r.machine.irq == Deliver(Invalid, inp.fired)
    ensures !inp.pinHigh ==>
      r.machine.lastEventTime == (if |inp.fired| == 0 then m.lastEventTime else inp.wokeAt)
    ensures !inp.pinHigh ==> (r.trace ==
      [StopWatchdog, ArmAlarm(inp.now + SleepSeconds), Sleep((SleepSeconds + 1) * 1000), ResumeWatchdog])
  {
    var cleared := m.(irq := Invalid);
    if inp.pinHigh then
      Outcome(cleared, [])
    else
      var wakeAt := inp.now + SleepSeconds;
      var sleepMs := (SleepSeconds + 1) * 1000;
      var reason := Deliver(cleared.irq, inp.fired);
      var woken := cleared.(irq := reason, state := Idle);
      var next := if reason == Invalid then woken else woken.(lastEventTime := inp.wokeAt);
      Outcome(next, [StopWatchdog, ArmAlarm(wakeAt), Sleep(sleepMs), ResumeWatchdog])
  }

  /** LOW_BATTERY: go back to IDLE at once. */
  function LowBatteryPass(m: Machine): (r: Outcome)
    requires m.state == LowBattery
    ensures r.machine.state == Idle && r.trace == []
    ensures r.machine == m.(state := Idle)
  {
    Outcome(m.(state := Idle), [])
  }

  /** ERROR: blink forever. The iteration never returns, which the model
      writes as a step that keeps the machine as it is. */
  function ErrorPass(m: Machine): (r: Outcome)
    requires m.state == Error
    ensures r.machine == m && r.trace == [BlinkForever]
  {
    Outcome(m, [BlinkForever])
  }

  /** The case of the `switch` for the current state, run after the edge
      guard; no case publishes anything itself. */
  function Dispatch(m: Machine, inp: Inputs, debounceMin: nat): (r: Outcome)
    ensures forall i :: 0 <= i < |r.trace| ==> !r.trace[i].Notify?
    ensures r.machine.oldState == m.oldState
    ensures r.machine.state == Error <==> m.state == Error
    ensures r.machine.state != LowBattery
    ensures m.state == Idle ==> r.machine.state == Idle
  {
    match m.state
    case Idle => IdlePass(m, inp.now, debounceMin)
    case Sleeping => SleepingPass(m, inp)
    case LowBattery => LowBatteryPass(m)
    case Error => ErrorPass(m)
  }

  /** One iteration of `loop`. */
  function Step(m: Machine, inp: Inputs, debounceMin: nat): (r: Outcome)
    // the edge is recorded, and announced once, before anything else
    ensures r.machine.oldState == m.state
    ensures Notifications(r.trace) == if m.state != m.oldState then [Notify(m.oldState, m.state)] else []
    ensures m.state != m.oldState ==> |r.trace| > 0 && r.trace[0] == Notify(m.oldState, m.state)
    // the loop never enters ERROR and never leaves it
    ensures r.machine.state == Error <==> m.state == Error
    // nothing assigns LOW_BATTERY, and IDLE never moves on
    ensures r.machine.state != LowBattery
    ensures m.state == Idle ==> r.machine.state == Idle
  {
    var edge := AnnounceEdge(m);
    var body := Dispatch(edge.machine, inp, debounceMin);
    NotificationsOfQuiet(body.trace);
    NotificationsAppend(edge.trace, body.trace);
    Outcome(body.machine, edge.trace + body.trace)
  }
}

=== FILE: power_runs.dfy ===
/** Sequences of loop iterations: terminality of ERROR, the states reachable
    from `setup`, one notification per state edge, and the watchdog never
    left suspended. */
module PowerRuns {
  import opened Irq
  import opened PowerMachine

  /** The machine after every iteration, and everything they emitted. */
  function Run(m: Machine, ins: seq<Inputs>, debounceMin: nat): (r: Outcome)
    ensures |ins| > 0 ==> r.machine.state != LowBattery
    ensures r.machine.state == Error <==> m.state == Error
    decreases |ins|
  {
    if |ins| == 0 then Outcome(m, [])
    else
      var s := Step(m, ins[0], debounceMin);
      var rest := Run(s.machine, ins[1..], debounceMin);
      Outcome(rest.machine, s.trace + rest.trace)
  }

  /** The state at the top of each iteration. */
  function Visited(m: Machine, ins: seq<Inputs>, debounceMin: nat): (vs: seq<PowerState>)
    ensures |vs| == |ins|
    ensures |vs| > 0 ==> vs[0] == m.state
    decreases |ins|
  {
    if |ins| == 0 then []
    else
      [m.state] + Visited(Step(m, ins[0], debounceMin).machine, ins[1..], debounceMin)
  }

  /** The reference for notifications: one per change between consecutive
      states, starting from the remembered previous state. */
  function Edges(prev: PowerState, vs: seq<PowerState>): (es: seq<Event>)
    decreases |vs|
  {
    if |vs| == 0 then []
    else (if vs[0] != prev then [Notify(prev, vs[0])] else []) + Edges(vs[0], vs[1..])
  }

  /** ERROR is terminal: every iteration starts and ends in it. */
  lemma {:induction false} ErrorIsTerminal(m: Machine, ins: seq<Inputs>, debounceMin: nat)
    requires m.state == Error
    ensures Run(m, ins, debounceMin).machine.state == Error
    ensures forall i :: 0 <= i < |ins| ==> Visited(m, ins, debounceMin)[i] == Error
    decreases |ins|
  {
    if |ins| > 0 {
      var s := Step(m, ins[0], debounceMin);
      ErrorIsTerminal(s.machine, ins[1..], debounceMin);
      var vs := Visited(m, ins, debounceMin);
      assert vs == [Error] + Visited(s.machine, ins[1..], debounceMin);
    }
  }

  /** From `setup`, the machine is IDLE forever if every collaborator came
      up and ERROR forever otherwise: SLEEPING and LOW_BATTERY are never
      reached. */
  lemma {:induction false} BootStates(m: Machine, ins: seq<Inputs>, debounceMin: nat)
    requires m.state == Idle || m.state == Error
    ensures Run(m, ins, debounceMin).machine.state == m.state
    ensures forall i :: 0 <= i < |ins| ==> Visited(m, ins, debounceMin)[i] == m.state
    decreases |ins|
  {
    if |ins| > 0 {
      var s := Step(m, ins[0], debounceMin);
      BootStates(s.machine, ins[1..], debounceMin);
      var vs := Visited(m, ins, debounceMin);
      assert vs == [m.state] + Visited(s.machine, ins[1..], debounceMin);
    }
  }

  /** The same, stated from the collaborators' setup results. */
  lemma NeverSleepsAfterSetup(sysDataOk: bool, timingOk: bool, sensorOk: bool, clock: int,
                              storedDebounceMin: nat, ins: seq<Inputs>)
    ensures var b := Setup(sysDataOk, timingOk, sensorOk, clock, storedDebounceMin);
      Run(b.machine, ins, b.debounceMin).machine.state
        == (if sysDataOk && timingOk && sensorOk then Idle else Error)
  {
    var b := Setup(sysDataOk, timingOk, sensorOk, clock, storedDebounceMin);
    BootStates(b.machine, ins, b.debounceMin);
  }

  /** Exactly one notification per state edge, in order: the notifications
      of a run are the edges between consecutive visited states. */
  lemma {:induction false} NotifyExactlyOnEdges(m: Machine, ins: seq<Inputs>, debounceMin: nat)
    ensures Notifications(Run(m, ins, debounceMin).trace) == Edges(m.oldState, Visited(m, ins, debounceMin))
    decreases |ins|
  {
    if |ins| > 0 {
      var s := Step(m, ins[0], debounceMin);
      NotifyExactlyOnEdges(s.machine, ins[1..], debounceMin);
      var rest := Run(s.machine, ins[1..], debounceMin);
      NotificationsAppend(s.trace, rest.trace);
      var vs := Visited(m, ins, debounceMin);
      assert vs == [m.state] + Visited(s.machine, ins[1..], debounceMin);
      assert vs[1..] == Visited(s.machine, ins[1..], debounceMin);
    }
  }

  /** The watchdog as the trace drives it; `Misused` is any stop while
      stopped, resume while running, or alarm or sleep while running. */
  datatype Watchdog = Running | Stopped | Misused

  function Apply(e: Event, w: Watchdog): (after: Watchdog)
  {
    match e
    case StopWatchdog => if w == Running then Stopped else Misused
    case ResumeWatchdog => if w == Stopped then Running else Misused
    case ArmAlarm(_) => if w == Running then Misused else w
    case Sleep(_) => if w == Running then Misused else w
    case _ => w
  }

  function Watch(t: seq<Event>, w: Watchdog): (final: Watchdog)
    decreases |t|
  {
    if |t| == 0 then w else Watch(t[1..], Apply(t[0], w))
  }

  lemma {:induction false} WatchMisusedStays(t: seq<Event>)
    ensures Watch(t, Misused) == Misused
    decreases |t|
  {
    if |t| > 0 {
      WatchMisusedStays(t[1..]);
    }
  }

  lemma {:induction false} WatchAppend(a: seq<Event>, b: seq<Event>, w: Watchdog)
    ensures Watch(a + b, w) == Watch(b, Watch(a, w))
    decreases |a|
  {
    if |a| > 0 {
      assert (a + b)[0] == a[0];
      assert (a + b)[1..] == a[1..] + b;
      WatchAppend(a[1..], b, Apply(a[0], w));
    } else {
      assert a + b == b;
    }
  }

  /** One iteration leaves a running watchdog running, and never misuses it. */
  lemma StepKeepsWatchdog(m: Machine, inp: Inputs, debounceMin: nat)
    ensures Watch(Step(m, inp, debounceMin).trace, Running) == Running
  {
    var edge := AnnounceEdge(m);
    var body := Dispatch(edge.machine, inp, debounceMin);
    WatchAppend(edge.trace, body.trace, Running);
    if |edge.trace| > 0 {
      assert Watch(edge.trace, Running) == Watch(edge.trace[1..], Running);
    }
    var b := body.trace;
    if |b| == 1 {
      assert Watch(b, Running) == Watch(b[1..], Running);
    } else if |b| == 4 {
      assert b[0] == StopWatchdog && b[1].ArmAlarm? && b[2].Sleep? && b[3] == ResumeWatchdog;
      assert Watch(b, Running) == Watch(b[1..], Stopped);
      assert Watch(b[1..], Stopped) == Watch(b[2..], Stopped);
      assert Watch(b[2..], Stopped) == Watch(b[3..], Stopped);
      assert Watch(b[3..], Stopped) == Watch(b[4..], Running);
    }
  }

  /** Over any run the watchdog is stopped and resumed in strict alternation,
      alarms and sleeps happen only while it is stopped, and it is running
      at the end. */
  lemma {:induction false} WatchdogBalanced(m: Machine, ins: seq<Inputs>, debounceMin: nat)
    ensures Watch(Run(m, ins, debounceMin).trace, Running) == Running
    decreases |ins|
  {
    if |ins| > 0 {
      var s := Step(m, ins[0], debounceMin);
      StepKeepsWatchdog(m, ins[0], debounceMin);
      WatchdogBalanced(s.machine, ins[1..], debounceMin);
      WatchAppend(s.trace, Run(s.machine, ins[1..], debounceMin).trace, Running);
    }
  }

  /** The mailbox reset makes the SLEEPING pass blind to any reason left
      over from before it. */
  lemma StaleReasonIgnored(m: Machine, stale: IrqReason, inp: Inputs, debounceMin: nat)
    requires m.state == Sleeping
    ensures Step(m.(irq := stale), inp, debounceMin) == Step(m, inp, debounceMin)
  {
  }
}
